=== FILE: README.md ===
# Workout API handlers and id parsing, modelled in Dafny

This project models the request-handling core of a Go workout-tracking API:
the four handlers of `api.WorkoutHandler` (fetch, create, update and delete a
workout) and the id-parameter parser `utils.ReadIDParam` with the
`strconv.ParseInt(s, 10, 64)` it relies on.

Each handler is a pure function. It takes the route's `id` parameter text, the
decoded request body (or a decode error), the caller's identity
(`Anonymous | Authenticated(userId)`, standing for the nil /
`store.AnonymousUser` comparison) and a `Script` of what the
`store.WorkoutStore` answers to each call. It returns a `Response`: the replies
written, in order, and the store calls made, in order, with their arguments.
The status the client sees is the first reply's, because Go ignores every
`WriteHeader` after the first.

Modules:
- `Wrappers`: `Option`.
- `Strconv`: `ParseUint` and `ParseInt` for base 10 and 64 bits, following Go's digit loop. The loop uses the cutoff test and the 64-bit wrap test. `FormatInt` is the reference rendering that the parser inverts.
- `Utils`: `ReadIDParam`.
- `Store`: workouts, entries, identity, scripted store answers and the call trace.
- `Http`: status codes, body tags, replies and responses.
- `Api`: the update merge, the shared ownership guard and the handlers.
- `WorkoutProperties`: lemmas relating the handlers to what they promise.

Behaviour modelled as the code has it:
- The update handler's bad-id branch writes a 400 and does not return. It then carries on with id 0, and a second reply follows. See "## Findings".
- `HandleWorkoutByID` has no nil check. A missing workout is answered 200 with a null `workout`.
- A caller who is not logged in gets 400, not 401.
- When the owner lookup finds no row (`errors.Is(err, sql.ErrNoRows)`), the answer is 400, not 404.
- The delete handler parses the id itself and answers a bad id with 404.
- The delete handler compares `DeleteWorkout`'s error to `sql.ErrNoRows` by identity. So `WriteNoRows` means exactly that sentinel, and a wrapped one counts as `WriteFailed` (500).
- The update merge happens before the identity and ownership checks. It changes the `*store.Workout` that `GetWorkoutByID` returned, in place. It makes no store call of its own.

## Model

| member | source | states |
|---|---|---|
| `Strconv.ScanDigits` | internal/utils/utils.go:39 | The digit loop of `ParseUint` succeeds exactly on all-digit strings whose value fits in 64 bits, and yields that value. An all-digit string whose value is too large gives `ErrRange`. |
| `Strconv.ParseUint` | internal/utils/utils.go:39 | An unsigned parse succeeds iff the string is a non-empty run of digits whose value is at most 2^64-1. `ErrSyntax` only comes from strings that are not such a run. |
| `Strconv.ParseInt` | internal/utils/utils.go:39 | A signed parse succeeds iff the string is an optional sign and then digits, and its value lies in [-2^63, 2^63-1]. It then yields that value. `ErrSyntax` only comes from strings that are not decimal literals. |
| `Strconv.ParseIntFormatInt` | internal/utils/utils.go:39 | Every int64 rendered in decimal parses back to itself. |
| `Utils.ReadIDParam` | internal/utils/utils.go:32-45 | An empty parameter gives exactly the "Invalid id parameter" error. A parameter that is not a base-10 int64 gives an error. No error means the id is the parameter's decimal value. An error always comes with id 0. |
| `Utils.ReadIDParamFormatInt` | internal/utils/utils.go:39-44 | The decimal rendering of any int64 reads back as that id with a nil error. |
| `Api.ApplyUpdate` | internal/api/workout_handler.go:124-140 | The merge never changes the workout's id or owner. |
| `WorkoutProperties.AbsentFieldsUnchanged` | internal/api/workout_handler.go:125-140 | Title, description, duration, calories and entries that the request omits keep their existing values. |
| `WorkoutProperties.PresentFieldsApplied` | internal/api/workout_handler.go:125-140 | Every field the request carries takes the request's value. Entries are replaced as a whole list. |
| `WorkoutProperties.TitleOnlyAndEmptyEntries` | internal/api/workout_handler.go:125-140 | A title-only update changes only the title. `entries: []` empties the entries and changes nothing else. |
| `WorkoutProperties.NoChangesIsIdentity` | internal/api/workout_handler.go:125-140 | A request with no fields leaves the workout as it was. |
| `WorkoutProperties.ApplyUpdateIdempotent` | internal/api/workout_handler.go:125-140 | Applying the same update twice equals applying it once. |
| `WorkoutProperties.ApplyUpdateCompose` | internal/api/workout_handler.go:125-140 | Two successive updates equal one update in which the later request's present fields win. |
| `Api.OwnershipGuard` | internal/api/workout_handler.go:143-163 | The guard permits iff the caller is authenticated and the owner lookup returned the caller's id. The owner lookup is made only for an authenticated caller. |
| `Api.HandleWorkoutByID` | internal/api/workout_handler.go:32-51 | The fetch never mutates and writes one reply. It calls the store iff the id parsed. |
| `WorkoutProperties.GetByIdStatus` | internal/api/workout_handler.go:35-50 | A bad id gives 400. A store error gives 500. Otherwise the answer is 200 with the fetched workout, or with null when there is none. |
| `Api.HandleCreateWorkout` | internal/api/workout_handler.go:55-83 | A create call is made only for an authenticated caller with a decoded body. The stored workout belongs to the caller and otherwise equals the body. No call is made on a decode error or for an anonymous caller. |
| `WorkoutProperties.CreateStatus` | internal/api/workout_handler.go:57-82 | A decode error gives 400. An anonymous caller gives 400. Otherwise the create result gives 201 with the stored workout, and a store error gives 500. |
| `Api.UpdatedWorkout` | internal/api/workout_handler.go:165-166 | The workout sent to `UpdateWorkout` carries the parsed id (0 after a bad id) and the existing owner. |
| `Api.UpdateWithId` | internal/api/workout_handler.go:94-177 | The first call is always `GetWorkoutByID(id)`. A mutation is the last call. It happens only when the workout exists, the body decoded and the caller owns the workout. It stores the merged workout. |
| `Api.HandleUpdateWorkoutByID` | internal/api/workout_handler.go:86-178 | A bad id answers 400 and two replies are written. Any mutation is an `UpdateWorkout` of the parsed id, made for the authenticated owner. |
| `WorkoutProperties.UpdateOrder` | internal/api/workout_handler.go:94-168 | The store calls form a prefix of: fetch, then owner lookup, then update. |
| `WorkoutProperties.UpdateStatus` | internal/api/workout_handler.go:94-163 | For a good id: a fetch error gives 500 and nil gives 404. A bad body gives 400. Anonymous gives 400. An owner with no row gives 400. An owner lookup error gives 500. An owner mismatch gives 403. Each case makes only the read calls listed. |
| `WorkoutProperties.UpdateMutatesIffOwner` | internal/api/workout_handler.go:143-177 | `UpdateWorkout` is called iff the workout exists, the body decoded, the caller is authenticated and the caller is the owner. It receives the merge with the parsed id (0 after a bad id). For a good id, success gives 200 with that workout and an error gives 500. |
| `WorkoutProperties.UpdateRejectionsDoNotMutate` | internal/api/workout_handler.go:94-163 | For a good id, every 400, 403 or 404 answer made no mutating call. |
| `WorkoutProperties.UpdateBadIdCarriesOn` | internal/api/workout_handler.go:89-94 | A bad id is answered 400 first. Then the rest of the handler runs for id 0. |
| `WorkoutProperties.BadIdStillUpdatesWorkoutZero` | internal/api/workout_handler.go:89-168 | The id "abc" is answered 400, and yet workout 0, owned by the caller, is overwritten. |
| `Api.HandleUpdateWorkoutByIDWithReturn` | internal/api/workout_handler.go:89-93 | With the `return` restored, a bad id answers 400 and makes no store call. Any mutation needs a good id and the authenticated owner. |
| `WorkoutProperties.WithReturnRejectionsDoNotMutate` | internal/api/workout_handler.go:89-93 | In the corrected handler, no 400, 403 or 404 answer made a mutating call. |
| `WorkoutProperties.WithReturnAgreesOnValidIds` | internal/api/workout_handler.go:89-93 | On a good id, the corrected handler behaves exactly like the written one. |
| `Api.HandleDeleteWorkoutByID` | internal/api/workout_handler.go:180-232 | An empty or non-int64 id answers 404 with no store call. A mutation is the last call and deletes the parsed id, for the authenticated owner only. |
| `WorkoutProperties.DeleteStatus` | internal/api/workout_handler.go:196-231 | Anonymous gives 400. An owner with no row gives 400. An owner lookup error gives 500. An owner mismatch gives 403. For the owner, `DeleteWorkout` follows the lookup: `ErrNoRows` gives 404, an error gives 500 and success gives 204. |
| `WorkoutProperties.DeleteMutatesIffOwner` | internal/api/workout_handler.go:196-221 | `DeleteWorkout` is called iff the id parses and the authenticated caller owns the workout. |
| `WorkoutProperties.DeleteRejectionsDoNotMutate` | internal/api/workout_handler.go:185-231 | A 400 or 403 answer made no mutating call. A 404 after a delete call only comes from `ErrNoRows`. |

## Findings

| source | as written | input that shows it | evidently intended | confidence | as-written member | corrected member |
|---|---|---|---|---|---|---|
| internal/api/workout_handler.go:90-93 | after answering 400 for a bad id, the update handler does not return and goes on with id 0 | id "abc", a logged-in caller 7 who owns workout 0, body `{"title":"x"}`: the answer is 400, yet workout 0 is updated | return right after the 400, so a bad id touches nothing | not executed | `WorkoutProperties.BadIdStillUpdatesWorkoutZero` | `Api.HandleUpdateWorkoutByIDWithReturn` (with `WorkoutProperties.WithReturnRejectionsDoNotMutate`) |

## Left out

- `utils.WriteJson` and the JSON envelope are not modelled. A reply is a status and an abstract body tag, and the body text's trailing newline is not modelled.
- JSON decoding of request bodies is a library call. Its outcome is an input: a decoded value or a decode error.
- `store.WorkoutStore` implementations are not part of this model: SQL, transactions and cascading deletes. Each store call is a scripted answer that does not depend on its argument. Each handler makes each call at most once.
- `middleware.GetUser` and the token and credential logic are not part of this model. The caller's identity is an input.
- Logging (`logger.Printf`) is left out. It has no effect on behaviour.
- `main.go`, `internal/store/database.go` and `internal/routes/routes.go` are left out. They do process startup, opening the database connection and route registration.
- `chi.URLParam` is left out. The parameter text is an input.
- `Strconv.ParseInt`: Go returns the clamped bound with a range error and fills in `NumError`'s `Func` and `Num` fields. The model returns only the error kind, because `ReadIDParam` and the delete handler throw the value away.
- The fields of `store.WorkoutEntry` are assumed, because the store package is not part of this model. `weight` is an integer. The handlers never look inside an entry.
- The store is assumed not to write through the `*Workout` it returns from `GetWorkoutByID` or receives in `UpdateWorkout`. So the 200 body of an update is the merged workout exactly as sent to `UpdateWorkout`. In Go, the same pointer is marshalled after the call, so any such write would show up in the reply. The store is also assumed to keep no reference to the `*Workout` it returns, so the in-place merge that runs before the guard changes no stored state.
- `int(workoutID)` assumes a 64-bit Go `int`. Ids are unbounded integers here.

=== FILE: http.dfy ===
/** What a handler writes to its `http.ResponseWriter`. */
module Http {
  import opened Wrappers
  import opened Store

  const StatusOK := 200
  const StatusCreated := 201
  const StatusNoContent := 204
  const StatusBadRequest := 400
  const StatusForbidden := 403
  const StatusNotFound := 404
  const StatusInternalServerError := 500

  /** The body tag of one write: a `utils.Envelope` with an `error` or a
      `workout` key, the plain text of `http.NotFound` / `http.Error`, or nothing. */
  datatype Body =
    | JsonError(message: string)
    | JsonWorkout(workout: Option<Workout>)
    | Text(message: string)
    | NoBody

  /** `http.NotFound` writes this text. */
  const NotFoundText := "404 page not found"

  /** One `WriteHeader(status)` followed by its body. */
  datatype Reply = Reply(status: int, body: Body)

  /** Everything a handler did: the replies in the order written and the store
      calls in the order made. */
  datatype Response = Response(replies: seq<Reply>, calls: seq<StoreCall>) {

    /** The status the client sees. Only the first `WriteHeader` takes effect;
        a handler that writes nothing answers 200. */
    function Status(): int {
      if |replies| == 0 then StatusOK else replies[0].status
    }
  }

  /** A response that writes one reply. */
  function Single(status: int, body: Body, calls: seq<StoreCall>): Response
  {
    Response([Reply(status, body)], calls)
  }
}

=== FILE: store.dfy ===
/** The shapes the handlers exchange with `store.WorkoutStore`, and the store
    seen from the handlers: each of its calls is a scripted answer. */
module Store {

  datatype WorkoutEntry = WorkoutEntry(
    id: int,
    exerciseName: string,
    sets: int,
    reps: int,
    weight: int,
    notes: string)

  datatype Workout = Workout(
    id: int,
    userId: int,
    title: string,
    description: string,
    durationMinutes: int,
    caloriesBurned: int,
    entries: seq<WorkoutEntry>)

  /** The caller as `middleware.GetUser` resolves it; a nil user and
      `store.AnonymousUser` are both `Anonymous`. */
  datatype Identity = Anonymous | Authenticated(userId: int)

  /** `GetWorkoutByID`: a workout, `(nil, nil)` for none, or an error. */
  datatype FetchResult = Fetched(workout: Workout) | NoWorkout | FetchFailed

  /** `GetWorkoutOwner`: an owner id, an error matching `sql.ErrNoRows`, or any other error. */
  datatype OwnerResult = Owner(userId: int) | OwnerNoRows | OwnerFailed

  /** `CreateWorkout`: the stored workout or an error. */
  datatype CreateResult = Created(workout: Workout) | CreateFailed

  /** `UpdateWorkout` / `DeleteWorkout`: nil, exactly `sql.ErrNoRows`, or any other error. */
  datatype WriteResult = Written | WriteNoRows | WriteFailed

  /** What the store answers to each call a single request may make (each is made at most once). */
  datatype Script = Script(
    getById: FetchResult,
    getOwner: OwnerResult,
    create: CreateResult,
    update: WriteResult,
    delete: WriteResult)

  /** One call into the store, with its argument. */
  datatype StoreCall =
    | GetWorkoutByID(id: int)
    | GetWorkoutOwner(id: int)
    | CreateWorkout(workout: Workout)
    | UpdateWorkout(workout: Workout)
    | DeleteWorkout(id: int)

  predicate IsMutation(c: StoreCall) {
    c.CreateWorkout? || c.UpdateWorkout? || c.DeleteWorkout?
  }

  predicate NoMutation(calls: seq<StoreCall>) {
    forall i :: 0 <= i < |calls| ==> !IsMutation(calls[i])
  }
}

=== FILE: strconv.dfy ===
/** The part of Go's `strconv` the id parser relies on: `ParseInt(s, 10, 64)`,
    built on `ParseUint`, as Go implements them for base 10 and 64 bits, and
    `FormatInt(n, 10)` as the reference rendering the parser must invert. */
module Strconv {

  /** Go's `int64`. */
  type Int64 = x: int | InInt64(x)

  /** Largest `uint64`, the `maxVal` of a 64-bit `ParseUint`. */
  const MaxUint64: int := 0xFFFF_FFFF_FFFF_FFFF

  /** `maxVal / 10 + 1`: an accumulator at or above it overflows when multiplied by 10. */
  const Cutoff10: int := MaxUint64 / 10 + 1

  /** `1 << 63`, the magnitude bound `ParseInt` applies after `ParseUint`. */
  const Int64Cutoff: int := 0x8000_0000_0000_0000

  /** The two sentinel errors a `*NumError` can wrap. */
  datatype NumError = ErrSyntax | ErrRange

  datatype NumResult = Parsed(value: int) | Failed(err: NumError)

  predicate InInt64(v: int) {
    -Int64Cutoff <= v < Int64Cutoff
  }

  // ---------------------------------------------------------------------------
  // Reference meaning of a decimal literal

  predicate IsDigit(c: char) {
    '0' <= c <= '9'
  }

  function DigitValue(c: char): (d: nat)
    requires IsDigit(c)
    ensures d < 10
  {
    c as int - '0' as int
  }

  function DigitChar(d: nat): (c: char)
    requires d < 10
    ensures IsDigit(c) && DigitValue(c) == d
  {
    ('0' as int + d) as char
  }

  predicate AllDigits(s: string) {
    forall i :: 0 <= i < |s| ==> IsDigit(s[i])
  }

  /** The number a digit string denotes, most significant digit first. */
  function DigitsValue(s: string): nat
    requires AllDigits(s)
    decreases |s|
  {
    if |s| == 0 then 0 else DigitsValue(s[..|s| - 1]) * 10 + DigitValue(s[|s| - 1])
  }

  predicate HasSign(s: string) {
    |s| > 0 && (s[0] == '+' || s[0] == '-')
  }

  /** The literal without its optional leading sign. */
  function Magnitude(s: string): string {
    if HasSign(s) then s[1..] else s
  }

  /** An optional `+` or `-` followed by at least one decimal digit: the strings
      `ParseInt(s, 10, _)` accepts syntactically. */
  predicate IsDecimalLiteral(s: string) {
    |Magnitude(s)| > 0 && AllDigits(Magnitude(s))
  }

  function LiteralValue(s: string): int
    requires IsDecimalLiteral(s)
  {
    if s[0] == '-' then -(DigitsValue(Magnitude(s)) as int) else DigitsValue(Magnitude(s))
  }

  /** A digit prefix never denotes more than the whole digit string. */
  lemma {:induction false} PrefixValueBound(s: string, k: nat)
    requires k <= |s|
    ensures AllDigits(s) ==> AllDigits(s[..k]) && DigitsValue(s[..k]) <= DigitsValue(s)
    decreases |s|
  {
    if AllDigits(s) {
      assert AllDigits(s[..k]) by {
        forall i | 0 <= i < k ensures IsDigit(s[..k][i]) {
          assert s[..k][i] == s[i];
        }
      }
      if k < |s| {
        var init := s[..|s| - 1];
        assert AllDigits(init) by {
          forall i | 0 <= i < |init| ensures IsDigit(init[i]) {
            assert init[i] == s[i];
          }
        }
        assert init[..k] == s[..k];
        PrefixValueBound(init, k);
      } else {
        assert s[..k] == s;
      }
    }
  }

  /** Extending a digit prefix by one digit shifts its value by one place. */
  lemma PrefixStep(s: string, i: nat)
    requires i < |s| && AllDigits(s[..i]) && IsDigit(s[i])
    ensures AllDigits(s[..i + 1])
    ensures DigitsValue(s[..i + 1]) == DigitsValue(s[..i]) * 10 + DigitValue(s[i])
  {
    assert s[..i + 1][..i] == s[..i];
    assert s[..i + 1][i] == s[i];
  }

  // ---------------------------------------------------------------------------
  // ParseUint(s, 10, 64)

  /** The digit loop of `ParseUint` from position `i` on, with accumulator `n`
      holding the value of the digits already read. A non-digit stops it with
      `ErrSyntax`; the first step that would pass `MaxUint64`, detected by the
      cutoff test or by the 64-bit sum wrapping round, stops it with `ErrRange`. */
  function ScanDigits(s: string, i: nat, n: nat): (r: NumResult)
    requires i <= |s| && AllDigits(s[..i]) && n == DigitsValue(s[..i]) && n <= MaxUint64
    decreases |s| - i
    ensures r.Parsed? ==> AllDigits(s) && r.value == DigitsValue(s) && r.value <= MaxUint64
    ensures AllDigits(s) && DigitsValue(s) <= MaxUint64 ==> r.Parsed?
    ensures AllDigits(s) && DigitsValue(s) > MaxUint64 ==> r == Failed(ErrRange)
  {
    if i == |s| then
      assert s[..i] == s;
      Parsed(n)
    else if !IsDigit(s[i]) then
      Failed(ErrSyntax)
    else if n >= Cutoff10 then
      PrefixStep(s, i);
      PrefixValueBound(s, i + 1);
      Failed(ErrRange)
    else
      var n1 := (n * 10 + DigitValue(s[i])) % (MaxUint64 + 1);
      PrefixStep(s, i);
      if n1 < n * 10 then
        PrefixValueBound(s, i + 1);
        Failed(ErrRange)
      else
        ScanDigits(s, i + 1, n1)
  }

  /** `strconv.ParseUint(s, 10, 64)`: the empty string is a syntax error,
      anything else is handed to the digit loop. */
  function ParseUint(s: string): (r: NumResult)
    ensures r.Parsed? <==> |s| > 0 && AllDigits(s) && DigitsValue(s) <= MaxUint64
    ensures r.Parsed? ==> r.value == DigitsValue(s)
    ensures r == Failed(ErrSyntax) ==> !(|s| > 0 && AllDigits(s))
  {
    if |s| == 0 then Failed(ErrSyntax) else ScanDigits(s, 0, 0)
  }

  /** `strconv.ParseInt(s, 10, 64)`: strip one optional sign, parse the rest
      as unsigned, and reject magnitudes outside `int64` with `ErrRange`. */
  function ParseInt(s: string): (r: NumResult)
    ensures r.Parsed? <==> IsDecimalLiteral(s) && InInt64(LiteralValue(s))
    ensures r.Parsed? ==> r.value == LiteralValue(s) && InInt64(r.value)
    ensures r == Failed(ErrSyntax) ==> !IsDecimalLiteral(s)
  {
    if |s| == 0 then
      Failed(ErrSyntax)
    else
      var neg := s[0] == '-';
      var body := if s[0] == '+' || s[0] == '-' then s[1..] else s;
      assert body == Magnitude(s);
      match ParseUint(body)
      case Failed(e) => Failed(e)
      case Parsed(un) =>
        if !neg && un >= Int64Cutoff then Failed(ErrRange)
        else if neg && un > Int64Cutoff then Failed(ErrRange)
        else Parsed(if neg then -un else un)
  }

  // ---------------------------------------------------------------------------
  // FormatInt(n, 10), the rendering ParseInt inverts

  function NatToDecimal(n: nat): string
    decreases n
  {
    if n < 10 then [DigitChar(n)] else NatToDecimal(n / 10) + [DigitChar(n % 10)]
  }

  /** `strconv.FormatInt(n, 10)`: a `-` for negatives, then the digits with no
      leading zero. */
  function FormatInt(n: int): string {
    if n < 0 then "-" + NatToDecimal(-n) else NatToDecimal(n)
  }

  lemma {:induction false} NatToDecimalDenotes(n: nat)
    ensures |NatToDecimal(n)| > 0 && AllDigits(NatToDecimal(n))
    ensures DigitsValue(NatToDecimal(n)) == n
    decreases n
  {
    var s := NatToDecimal(n);
    if n >= 10 {
      NatToDecimalDenotes(n / 10);
      var init := NatToDecimal(n / 10);
      assert s == init + [DigitChar(n % 10)];
      assert s[..|s| - 1] == init;
      assert AllDigits(s) by {
        forall i | 0 <= i < |s| ensures IsDigit(s[i]) {
          if i < |init| { assert s[i] == init[i]; }
        }
      }
    }
  }

  /** `FormatInt` renders a decimal literal denoting its argument. */
  lemma FormatIntDenotes(n: int)
    ensures IsDecimalLiteral(FormatInt(n)) && LiteralValue(FormatInt(n)) == n
  {
    var s := FormatInt(n);
    if n < 0 {
      NatToDecimalDenotes(-n);
      assert Magnitude(s) == NatToDecimal(-n);
    } else {
      NatToDecimalDenotes(n);
      assert IsDigit(s[0]);
      assert Magnitude(s) == NatToDecimal(n);
    }
  }

  /** Every `int64` survives `FormatInt` followed by `ParseInt`. */
  lemma ParseIntFormatInt(n: Int64)
    ensures ParseInt(FormatInt(n)) == Parsed(n)
  {
    FormatIntDenotes(n);
  }
}

=== FILE: utils.dfy ===
/** `utils.ReadIDParam`: the `id` route parameter as a signed 64-bit integer.
    The route lookup itself is the caller's job; this module receives the
    parameter text it produced (empty when the route had no `id`). */
module Utils {
  import opened Wrappers
  import opened Strconv

  /** The two error values `ReadIDParam` can return. */
  datatype IdError =
    | EmptyIdParam   // "Invalid id parameter"
    | BadIdType      // "Invalid id parameter type"

  /** Go's `(int64, error)` pair. */
  datatype IdParam = IdParam(id: Int64, err: Option<IdError>)

  function ReadIDParam(idParam: string): (r: IdParam)
    ensures r.err.Some? ==> r.id == 0
    ensures r.err == Some(EmptyIdParam) <==> idParam == ""
    ensures r.err.None? <==> IsDecimalLiteral(idParam) && InInt64(LiteralValue(idParam))
    ensures r.err.None? ==> r.id == LiteralValue(idParam)
  {
    if idParam == "" then
      IdParam(0, Some(EmptyIdParam))
    else
      match ParseInt(idParam)
      case Parsed(v) => IdParam(v, None)
      case Failed(_) => IdParam(0, Some(BadIdType))
  }

  /** The decimal rendering of any `int64` reads back as that value, error nil. */
  lemma ReadIDParamFormatInt(n: Int64)
    ensures ReadIDParam(FormatInt(n)) == IdParam(n, None)
  {
    ParseIntFormatInt(n);
    assert |FormatInt(n)| > 0 by { FormatIntDenotes(n); }
  }
}

=== FILE: workout_handler.dfy ===
/** `api.WorkoutHandler`: the four workout handlers as pure decisions over the
    id parameter, the decoded body, the caller and the store's scripted answers. */
module Api {
  import opened Wrappers
  import opened Strconv
  import opened Utils
  import opened Store
  import opened Http

  /** Outcome of `json.NewDecoder(req.Body).Decode`. */
  datatype Decoded<T> = DecodeOk(value: T) | DecodeError

  /** The anonymous request struct of the update handler. A pointer field left
      nil is `None`; `entries` is `None` for a nil slice (key absent or `null`)
      and `Some([])` for an empty JSON array. */
  datatype UpdateWorkoutRequest = UpdateWorkoutRequest(
    title: Option<string>,
    description: Option<string>,
    durationMinutes: Option<int>,
    caloriesBurned: Option<int>,
    entries: Option<seq<WorkoutEntry>>)

  /** The partial-update merge: every field present in the request overwrites
      the existing one; `entries`, when present, replaces the whole list. */
  function ApplyUpdate(w: Workout, req: UpdateWorkoutRequest): (r: Workout)
    ensures r.id == w.id && r.userId == w.userId
  {
    w.(title := req.title.GetOr(w.title),
       description := req.description.GetOr(w.description),
       durationMinutes := req.durationMinutes.GetOr(w.durationMinutes),
       caloriesBurned := req.caloriesBurned.GetOr(w.caloriesBurned),
       entries := req.entries.GetOr(w.entries))
  }

  // ---------------------------------------------------------------------------
  // The ownership guard shared by update and delete

  /** Either the request may mutate, or the reply that rejects it; with the
      store calls the guard made either way. */
  datatype Guard = Permitted(calls: seq<StoreCall>) | Rejected(reply: Reply, calls: seq<StoreCall>)

  /** The identity check, then `GetWorkoutOwner(id)`, then owner equals caller.
      `forbidden` is the handler's own 403 message. */
  function OwnershipGuard(id: int, caller: Identity, owner: OwnerResult, forbidden: string): (g: Guard)
    ensures g.Permitted? <==> caller.Authenticated? && owner == Owner(caller.userId)
    ensures caller.Anonymous? ==> g.calls == []
    ensures caller.Authenticated? ==> g.calls == [GetWorkoutOwner(id)]
  {
    match caller
    case Anonymous =>
      Rejected(Reply(StatusBadRequest, JsonError("you must be logged in to update")), [])
    case Authenticated(uid) =>
      var calls := [GetWorkoutOwner(id)];
      match owner
      case OwnerNoRows => Rejected(Reply(StatusBadRequest, JsonError("workout does not exists")), calls)
      case OwnerFailed => Rejected(Reply(StatusInternalServerError, JsonError("internal server error")), calls)
      case Owner(o) =>
        if o != uid then Rejected(Reply(StatusForbidden, JsonError(forbidden)), calls)
        else Permitted(calls)
  }

  // ---------------------------------------------------------------------------
  // Handlers

  /** `HandleWorkoutByID`. There is no nil check: a missing workout is a 200 with a null workout. */
  function HandleWorkoutByID(idParam: string, store: Script): (r: Response)
    ensures NoMutation(r.calls) && |r.replies| == 1
    ensures ReadIDParam(idParam).err.Some? <==> r.calls == []
  {
    var p := ReadIDParam(idParam);
    if p.err.Some? then
      Single(StatusBadRequest, JsonError("Invalid workout id"), [])
    else
      var calls := [GetWorkoutByID(p.id)];
      match store.getById
      case FetchFailed => Single(StatusInternalServerError, JsonError("Internal Server Error"), calls)
      case NoWorkout => Single(StatusOK, JsonWorkout(None), calls)
      case Fetched(w) => Single(StatusOK, JsonWorkout(Some(w)), calls)
  }

  /** `HandleCreateWorkout`: the decoded workout is stored under the caller's id,
      whatever `user_id` the body carried. */
  function HandleCreateWorkout(body: Decoded<Workout>, caller: Identity, store: Script): (r: Response)
    ensures |r.replies| == 1 && |r.calls| <= 1
    ensures forall i :: 0 <= i < |r.calls| ==>
              && r.calls[i].CreateWorkout?
              && caller.Authenticated? && body.DecodeOk?
              && r.calls[i].workout.userId == caller.userId
              && r.calls[i].workout.(userId := body.value.userId) == body.value
    ensures r.calls == [] <==> body.DecodeError? || caller.Anonymous?
  {
    match body
    case DecodeError => Single(StatusBadRequest, JsonError("Invalid request sent"), [])
    case DecodeOk(w) =>
      match caller
      case Anonymous => Single(StatusBadRequest, JsonError("you must be logged in"), [])
      case Authenticated(uid) =>
        var calls := [CreateWorkout(w.(userId := uid))];
        match store.create
        case CreateFailed => Single(StatusInternalServerError, JsonError("failed to create workout"), calls)
        case Created(stored) => Single(StatusCreated, JsonWorkout(Some(stored)), calls)
  }

  /** The workout `UpdateWorkout` receives: the merge, with its id set to `id`. */
  function UpdatedWorkout(existing: Workout, req: UpdateWorkoutRequest, id: int): (w: Workout)
    ensures w.id == id && w.userId == existing.userId
  {
    ApplyUpdate(existing, req).(id := id)
  }

  /** The update handler from the `GetWorkoutByID` call on, for the id it carries on with. */
  function UpdateWithId(id: Int64, body: Decoded<UpdateWorkoutRequest>, caller: Identity, store: Script): (r: Response)
    ensures |r.replies| == 1
    ensures |r.calls| >= 1 && r.calls[0] == GetWorkoutByID(id)
    ensures forall i :: 0 <= i < |r.calls| && IsMutation(r.calls[i]) ==>
              && i == |r.calls| - 1
              && caller.Authenticated? && store.getOwner == Owner(caller.userId)
              && store.getById.Fetched? && body.DecodeOk?
              && r.calls[i] == UpdateWorkout(UpdatedWorkout(store.getById.workout, body.value, id))
  {
    var fetch := [GetWorkoutByID(id)];
    match store.getById
    case FetchFailed => Single(StatusInternalServerError, JsonError("Internal server error"), fetch)
    case NoWorkout => Single(StatusNotFound, Text(NotFoundText), fetch)
    case Fetched(existing) =>
      match body
      case DecodeError => Single(StatusBadRequest, JsonError("Invalid request payload"), fetch)
      case DecodeOk(req) =>
        match OwnershipGuard(id, caller, store.getOwner, "you are not authorized to update this workout")
        case Rejected(reply, guardCalls) => Response([reply], fetch + guardCalls)
        case Permitted(guardCalls) =>
          var w := UpdatedWorkout(existing, req, id);
          var calls := fetch + guardCalls + [UpdateWorkout(w)];
          match store.update
          case Written => Single(StatusOK, JsonWorkout(Some(w)), calls)
          case _ => Single(StatusInternalServerError, JsonError("Internal server error"), calls)
  }

  /** `HandleUpdateWorkoutByID` as written: a bad id writes a 400 but does not
      return, so the handler carries on with id 0 and writes a second reply. */
  function HandleUpdateWorkoutByID(idParam: string, body: Decoded<UpdateWorkoutRequest>, caller: Identity, store: Script): (r: Response)
    ensures ReadIDParam(idParam).err.Some? ==> r.Status() == StatusBadRequest && |r.replies| == 2
    ensures ReadIDParam(idParam).err.None? ==> |r.replies| == 1
    ensures forall i :: 0 <= i < |r.calls| && IsMutation(r.calls[i]) ==>
              && caller.Authenticated? && store.getOwner == Owner(caller.userId)
              && r.calls[i].UpdateWorkout? && r.calls[i].workout.id == ReadIDParam(idParam).id
  {
    var p := ReadIDParam(idParam);
    var rest := UpdateWithId(p.id, body, caller, store);
    if p.err.Some? then
      Response([Reply(StatusBadRequest, JsonError("Invalid workout update id"))] + rest.replies, rest.calls)
    else
      rest
  }

  /** The update handler with the `return` the bad-id branch lacks. */
  function HandleUpdateWorkoutByIDWithReturn(idParam: string, body: Decoded<UpdateWorkoutRequest>, caller: Identity, store: Script): (r: Response)
    ensures |r.replies| == 1
    ensures ReadIDParam(idParam).err.Some? ==> r.Status() == StatusBadRequest && r.calls == []
    ensures forall i :: 0 <= i < |r.calls| && IsMutation(r.calls[i]) ==>
              && ReadIDParam(idParam).err.None?
              && caller.Authenticated? && store.getOwner == Owner(caller.userId)
              && r.calls[i].UpdateWorkout? && r.calls[i].workout.id == LiteralValue(idParam)
  {
    var p := ReadIDParam(idParam);
    if p.err.Some? then
      Single(StatusBadRequest, JsonError("Invalid workout update id"), [])
    else
      UpdateWithId(p.id, body, caller, store)
  }

  /** `HandleDeleteWorkoutByID`. It parses the route parameter itself and
      answers a bad id with 404, not 400. */
  function HandleDeleteWorkoutByID(idParam: string, caller: Identity, store: Script): (r: Response)
    ensures |r.replies| == 1
    ensures forall i :: 0 <= i < |r.calls| && IsMutation(r.calls[i]) ==>
              && i == |r.calls| - 1
              && caller.Authenticated? && store.getOwner == Owner(caller.userId)
              && IsDecimalLiteral(idParam) && r.calls[i] == DeleteWorkout(LiteralValue(idParam))
    ensures !(IsDecimalLiteral(idParam) && InInt64(LiteralValue(idParam))) ==>
              r.Status() == StatusNotFound && r.calls == []
  {
    if idParam == "" then
      Single(StatusNotFound, Text(NotFoundText), [])
    else
      match ParseInt(idParam)
      case Failed(_) => Single(StatusNotFound, Text(NotFoundText), [])
      case Parsed(id) =>
        match OwnershipGuard(id, caller, store.getOwner, "you are not authorized to delete this workout")
        case Rejected(reply, guardCalls) => Response([reply], guardCalls)
        case Permitted(guardCalls) =>
          var calls := guardCalls + [DeleteWorkout(id)];
          match store.delete
          case WriteNoRows => Single(StatusNotFound, Text("Workout not found"), calls)
          case WriteFailed => Single(StatusInternalServerError, Text("error deleting the workout"), calls)
          case Written => Single(StatusNoContent, NoBody, calls)
  }
}

=== FILE: workout_properties.dfy ===
/** What the workout handlers promise, stated over all inputs. */
module WorkoutProperties {
  import opened Wrappers
  import opened Strconv
  import opened Utils
  import opened Store
  import opened Http
  import opened Api

  // ---------------------------------------------------------------------------
  // The partial-update merge

  /** The request that sets nothing. */
  const NoChanges := UpdateWorkoutRequest(None, None, None, None, None)

  /** A field the request leaves out keeps the existing value. */
  lemma AbsentFieldsUnchanged(w: Workout, req: UpdateWorkoutRequest)
    ensures req.title.None? ==> ApplyUpdate(w, req).title == w.title
    ensures req.description.None? ==> ApplyUpdate(w, req).description == w.description
    ensures req.durationMinutes.None? ==> ApplyUpdate(w, req).durationMinutes == w.durationMinutes
    ensures req.caloriesBurned.None? ==> ApplyUpdate(w, req).caloriesBurned == w.caloriesBurned
    ensures req.entries.None? ==> ApplyUpdate(w, req).entries == w.entries
  {
  }

  /** A field the request carries takes the request's value; entries are
      replaced as a whole, never merged, an empty list included. */
  lemma PresentFieldsApplied(w: Workout, req: UpdateWorkoutRequest)
    ensures req.title.Some? ==> ApplyUpdate(w, req).title == req.title.value
    ensures req.description.Some? ==> ApplyUpdate(w, req).description == req.description.value
    ensures req.durationMinutes.Some? ==> ApplyUpdate(w, req).durationMinutes == req.durationMinutes.value
    ensures req.caloriesBurned.Some? ==> ApplyUpdate(w, req).caloriesBurned == req.caloriesBurned.value
    ensures req.entries.Some? ==> ApplyUpdate(w, req).entries == req.entries.value
  {
  }

  /** Sending only a title changes only the title; sending only `entries: []`
      empties the entries and changes nothing else. */
  lemma TitleOnlyAndEmptyEntries(w: Workout, t: string)
    ensures ApplyUpdate(w, NoChanges.(title := Some(t))) == w.(title := t)
    ensures ApplyUpdate(w, NoChanges.(entries := Some([]))) == w.(entries := [])
  {
  }

  lemma NoChangesIsIdentity(w: Workout)
    ensures ApplyUpdate(w, NoChanges) == w
  {
  }

  /** Replaying a request changes nothing further. */
  lemma ApplyUpdateIdempotent(w: Workout, req: UpdateWorkoutRequest)
    ensures ApplyUpdate(ApplyUpdate(w, req), req) == ApplyUpdate(w, req)
  {
  }

  /** `b` over `a`: each field of `b` when present, otherwise `a`'s. */
  function Then(a: UpdateWorkoutRequest, b: UpdateWorkoutRequest): UpdateWorkoutRequest {
    UpdateWorkoutRequest(
      if b.title.Some? then b.title else a.title,
      if b.description.Some? then b.description else a.description,
      if b.durationMinutes.Some? then b.durationMinutes else a.durationMinutes,
      if b.caloriesBurned.Some? then b.caloriesBurned else a.caloriesBurned,
      if b.entries.Some? then b.entries else a.entries)
  }

  /** Two successive updates act as one whose later fields win. */
  lemma ApplyUpdateCompose(w: Workout, a: UpdateWorkoutRequest, b: UpdateWorkoutRequest)
    ensures ApplyUpdate(ApplyUpdate(w, a), b) == ApplyUpdate(w, Then(a, b))
  {
  }

  // ---------------------------------------------------------------------------
  // Get by id

  lemma GetByIdStatus(idParam: string, store: Script)
    ensures ReadIDParam(idParam).err.Some? ==> HandleWorkoutByID(idParam, store).Status() == StatusBadRequest
    ensures ReadIDParam(idParam).err.None? ==>
              HandleWorkoutByID(idParam, store).calls == [GetWorkoutByID(LiteralValue(idParam))]
    ensures ReadIDParam(idParam).err.None? && store.getById.FetchFailed? ==>
              HandleWorkoutByID(idParam, store).Status() == StatusInternalServerError
    ensures ReadIDParam(idParam).err.None? && store.getById.Fetched? ==>
              HandleWorkoutByID(idParam, store).replies == [Reply(StatusOK, JsonWorkout(Some(store.getById.workout)))]
    ensures ReadIDParam(idParam).err.None? && store.getById.NoWorkout? ==>
              HandleWorkoutByID(idParam, store).replies == [Reply(StatusOK, JsonWorkout(None))]
  {
  }

  // ---------------------------------------------------------------------------
  // Create

  lemma CreateStatus(body: Decoded<Workout>, caller: Identity, store: Script)
    ensures body.DecodeError? ==> HandleCreateWorkout(body, caller, store).Status() == StatusBadRequest
    ensures body.DecodeOk? && caller.Anonymous? ==>
              HandleCreateWorkout(body, caller, store).Status() == StatusBadRequest
    ensures body.DecodeOk? && caller.Authenticated? ==>
              HandleCreateWorkout(body, caller, store).calls
                == [CreateWorkout(body.value.(userId := caller.userId))]
    ensures body.DecodeOk? && caller.Authenticated? && store.create.CreateFailed? ==>
              HandleCreateWorkout(body, caller, store).Status() == StatusInternalServerError
    ensures body.DecodeOk? && caller.Authenticated? && store.create.Created? ==>
              HandleCreateWorkout(body, caller, store).replies
                == [Reply(StatusCreated, JsonWorkout(Some(store.create.workout)))]
  {
  }

  // ---------------------------------------------------------------------------
  // Update

  /** The calls an update makes form a prefix of: fetch, owner lookup, mutation. */
  predicate UpdateCallsInOrder(calls: seq<StoreCall>, id: int) {
    && |calls| <= 3
    && (|calls| > 0 ==> calls[0] == GetWorkoutByID(id))
    && (|calls| > 1 ==> calls[1] == GetWorkoutOwner(id))
    && (|calls| > 2 ==> calls[2].UpdateWorkout?)
  }

  lemma UpdateOrder(idParam: string, body: Decoded<UpdateWorkoutRequest>, caller: Identity, store: Script)
    ensures UpdateCallsInOrder(HandleUpdateWorkoutByID(idParam, body, caller, store).calls, ReadIDParam(idParam).id)
  {
  }

  /** For a well-formed id, each guard failure maps to its own status, and the
      mutation happens exactly when every guard passed. */
  lemma UpdateStatus(idParam: string, body: Decoded<UpdateWorkoutRequest>, caller: Identity, store: Script)
    requires ReadIDParam(idParam).err.None?
    ensures var r := HandleUpdateWorkoutByID(idParam, body, caller, store);
      && (store.getById.FetchFailed? ==> r.Status() == StatusInternalServerError && |r.calls| == 1)
      && (store.getById.NoWorkout? ==> r.Status() == StatusNotFound && |r.calls| == 1)
      && (store.getById.Fetched? && body.DecodeError? ==> r.Status() == StatusBadRequest && |r.calls| == 1)
      && (store.getById.Fetched? && body.DecodeOk? && caller.Anonymous? ==>
            r.Status() == StatusBadRequest && |r.calls| == 1)
      && (store.getById.Fetched? && body.DecodeOk? && caller.Authenticated? && store.getOwner.OwnerNoRows? ==>
            r.Status() == StatusBadRequest && |r.calls| == 2)
      && (store.getById.Fetched? && body.DecodeOk? && caller.Authenticated? && store.getOwner.OwnerFailed? ==>
            r.Status() == StatusInternalServerError && |r.calls| == 2)
      && (store.getById.Fetched? && body.DecodeOk? && caller.Authenticated? && store.getOwner.Owner?
            && store.getOwner.userId != caller.userId ==>
            r.Status() == StatusForbidden && |r.calls| == 2)
  {
  }

  /** An update reaches `UpdateWorkout` exactly when the workout exists, the
      body decoded, the caller is logged in and owns it; it then stores the
      merged workout under the parsed id (0 after a bad id) and, for a good
      id, answers 200 with it, or 500. */
  lemma UpdateMutatesIffOwner(idParam: string, body: Decoded<UpdateWorkoutRequest>, caller: Identity, store: Script)
    ensures var r := HandleUpdateWorkoutByID(idParam, body, caller, store);
      NoMutation(r.calls) <==>
        !(store.getById.Fetched? && body.DecodeOk? && caller.Authenticated? && store.getOwner == Owner(caller.userId))
    ensures var r := HandleUpdateWorkoutByID(idParam, body, caller, store);
      store.getById.Fetched? && body.DecodeOk? && caller.Authenticated? && store.getOwner == Owner(caller.userId) ==>
        var w := UpdatedWorkout(store.getById.workout, body.value, ReadIDParam(idParam).id);
        && r.calls[|r.calls| - 1] == UpdateWorkout(w)
        && (ReadIDParam(idParam).err.None? && store.update.Written? ==>
              r.replies == [Reply(StatusOK, JsonWorkout(Some(w)))])
        && (ReadIDParam(idParam).err.None? && !store.update.Written? ==>
              r.Status() == StatusInternalServerError)
  {
    var r := HandleUpdateWorkoutByID(idParam, body, caller, store);
    if store.getById.Fetched? && body.DecodeOk? && caller.Authenticated? && store.getOwner == Owner(caller.userId) {
      assert IsMutation(r.calls[|r.calls| - 1]);
    }
  }

  /** With a well-formed id, every rejection (400, 403, 404) makes no mutating store call. */
  lemma UpdateRejectionsDoNotMutate(idParam: string, body: Decoded<UpdateWorkoutRequest>, caller: Identity, store: Script)
    requires ReadIDParam(idParam).err.None?
    ensures var r := HandleUpdateWorkoutByID(idParam, body, caller, store);
      r.Status() in {StatusBadRequest, StatusForbidden, StatusNotFound} ==> NoMutation(r.calls)
  {
  }

  /** A bad id is answered 400 first, and then the rest of the handler runs for id 0. */
  lemma UpdateBadIdCarriesOn(idParam: string, body: Decoded<UpdateWorkoutRequest>, caller: Identity, store: Script)
    requires ReadIDParam(idParam).err.Some?
    ensures var r := HandleUpdateWorkoutByID(idParam, body, caller, store);
      && r.replies[0] == Reply(StatusBadRequest, JsonError("Invalid workout update id"))
      && r.replies[1..] == UpdateWithId(0, body, caller, store).replies
      && r.calls == UpdateWithId(0, body, caller, store).calls
      && r.calls[0] == GetWorkoutByID(0)
  {
  }

  /** The missing `return` in action: the id "abc" is rejected with 400, yet
      workout 0, owned by the caller, is overwritten. */
  lemma BadIdStillUpdatesWorkoutZero()
    ensures var existing := Workout(0, 7, "run", "", 30, 300, []);
      var store := Script(Fetched(existing), Owner(7), CreateFailed, Written, Written);
      var r := HandleUpdateWorkoutByID("abc", DecodeOk(NoChanges.(title := Some("x"))), Authenticated(7), store);
      && r.Status() == StatusBadRequest
      && r.calls[2] == UpdateWorkout(existing.(title := "x"))
  {
    assert ReadIDParam("abc").err.Some? by {
      assert !IsDigit("abc"[0]);
    }
  }

  /** With the `return` in place, no rejected request makes a mutating store call. */
  lemma WithReturnRejectionsDoNotMutate(idParam: string, body: Decoded<UpdateWorkoutRequest>, caller: Identity, store: Script)
    ensures var r := HandleUpdateWorkoutByIDWithReturn(idParam, body, caller, store);
      r.Status() in {StatusBadRequest, StatusForbidden, StatusNotFound} ==> NoMutation(r.calls)
  {
  }

  /** The corrected handler differs from the written one only on a bad id. */
  lemma WithReturnAgreesOnValidIds(idParam: string, body: Decoded<UpdateWorkoutRequest>, caller: Identity, store: Script)
    requires ReadIDParam(idParam).err.None?
    ensures HandleUpdateWorkoutByIDWithReturn(idParam, body, caller, store)
         == HandleUpdateWorkoutByID(idParam, body, caller, store)
  {
  }

  // ---------------------------------------------------------------------------
  // Delete

  lemma DeleteStatus(idParam: string, caller: Identity, store: Script)
    requires IsDecimalLiteral(idParam) && InInt64(LiteralValue(idParam))
    ensures var r := HandleDeleteWorkoutByID(idParam, caller, store);
      && (caller.Anonymous? ==> r.Status() == StatusBadRequest && r.calls == [])
      && (caller.Authenticated? ==> r.calls[0] == GetWorkoutOwner(LiteralValue(idParam)))
      && (caller.Authenticated? && store.getOwner.OwnerNoRows? ==> r.Status() == StatusBadRequest && |r.calls| == 1)
      && (caller.Authenticated? && store.getOwner.OwnerFailed? ==> r.Status() == StatusInternalServerError && |r.calls| == 1)
      && (caller.Authenticated? && store.getOwner.Owner? && store.getOwner.userId != caller.userId ==>
            r.Status() == StatusForbidden && |r.calls| == 1)
      && (caller.Authenticated? && store.getOwner == Owner(caller.userId) ==>
            && r.calls == [GetWorkoutOwner(LiteralValue(idParam)), DeleteWorkout(LiteralValue(idParam))]
            && (store.delete.WriteNoRows? ==> r.Status() == StatusNotFound)
            && (store.delete.WriteFailed? ==> r.Status() == StatusInternalServerError)
            && (store.delete.Written? ==> r.replies == [Reply(StatusNoContent, NoBody)]))
  {
  }

  /** A delete reaches `DeleteWorkout` exactly when the id parses and the
      logged-in caller owns the workout. */
  lemma DeleteMutatesIffOwner(idParam: string, caller: Identity, store: Script)
    ensures NoMutation(HandleDeleteWorkoutByID(idParam, caller, store).calls) <==>
      !(IsDecimalLiteral(idParam) && InInt64(LiteralValue(idParam))
        && caller.Authenticated? && store.getOwner == Owner(caller.userId))
  {
    var r := HandleDeleteWorkoutByID(idParam, caller, store);
    if IsDecimalLiteral(idParam) && InInt64(LiteralValue(idParam)) && caller.Authenticated? && store.getOwner == Owner(caller.userId) {
      assert IsMutation(r.calls[1]);
    }
  }

  /** Every rejection of a delete (400, 403, 404 before the store call) makes no mutating store call. */
  lemma DeleteRejectionsDoNotMutate(idParam: string, caller: Identity, store: Script)
    ensures var r := HandleDeleteWorkoutByID(idParam, caller, store);
      r.Status() in {StatusBadRequest, StatusForbidden} ==> NoMutation(r.calls)
    ensures var r := HandleDeleteWorkoutByID(idParam, caller, store);
      r.Status() == StatusNotFound && !NoMutation(r.calls) ==> store.delete.WriteNoRows?
  {
  }
}

=== FILE: wrappers.dfy ===
/** Option, used for the optional fields of an update request and for the
    error half of Go's `(value, error)` returns. */
module Wrappers {

  datatype Option<+T> = None | Some(value: T) {

    /** The wrapped value when present, otherwise `default`. */
    function GetOr(default: T): T
    {
      match this
      case Some(v) => v
      case None => default
    }
  }
}
